=== FILE: README.md ===
# TelegramDock relay bot — a Dafny model

TelegramDock is a customer-service relay bot for Telegram. Users write to the bot. Each message is counted in the user's profile, written to a bounded audit log, and relayed to one operator account. The operator answers by sending `@<user id> <text>`, and the bot delivers that text to the user. When no operator is configured, the bot acknowledges messages and says that no one can answer yet. Three commands (`/start`, `/id`, `/menu`) and an inline menu with three buttons (`get_id`, `contact_support`, `help`) complete the interface.

This project models the bot's core as pure functions over immutable data:

- `Numerals`: Python's `int()` and `str()` on decimal integers.
- `Audit`: the record `log_message` writes. Its content is cut to 100 characters. The log keeps only the newest 1000 records.
- `Classifier`: the if/elif chain that gives a message its audit type and summary. Both message handlers carry an identical copy of it.
- `Profiles`: `update_user_info`. It overwrites the sender's profile and increments their message count.
- `Config`: how `load_config` resolves the token and the operator id, and which half of the handler table that id selects.
- `ReplyParser`: the operator's `@<id> <body>` convention, as `handle_admin_reply` splits and parses it.
- `Handlers`: each handler's effect on the profile store and the audit log, and the outward calls it makes, in order.
- `Dispatch`: the handler table registered in `run`. It treats the bot as a state machine that handles one event at a time.

Outward calls (sending, forwarding, replying, editing, answering a button) are not performed. They are listed as `Action` values. Whether each one succeeds is decided by a `Network`, a function from action to `Delivered` or `Failed(error)` that the caller supplies. This is how the model covers every `except` branch around the handlers' outward calls without modelling the transport.

Points where the code's behaviour may be surprising, and which the model reproduces:

- An operator text that starts with `@` but has no space, such as `@123`, is silently ignored, not answered with the format error.
- The split is on a single space character, not on a run of whitespace. `@123  hi` sends ` hi`, with the leading space kept.
- `handle_callback` answers the button before it does anything else. If that call fails, nothing is audited and no profile changes.
- In `forward_to_admin`, if the success acknowledgement itself fails, the failure notice is sent as well.
- In `handle_admin_reply`, a failed confirmation to the operator also ends in the "send failed" reply.
- `load_config` reads both options inside one `try`. A missing option therefore makes both the token and the operator id absent.
- With an operator configured, the operator's own media messages match no handler. A message with neither text nor a listed media kind matches no handler in either mode. So the `unknown` audit type is never written through the registered handlers.

## Model

| member | source | states |
|---|---|---|
| `Numerals.ParseInt` | bot.py:526 | `int()` succeeds exactly on an optional sign followed by one or more ASCII digits. A digit string yields its decimal value, and the sign decides whether the value is negative. |
| `Numerals.IntToString` | bot.py:535 | `str(n)` is itself a valid integer literal with no space and no `+`. It starts with a digit exactly when `n` is not negative. That it has no leading zero, and that 0 is written `0`, is `IntToStringNoLeadingZero`. |
| `Numerals.NatDigitsRoundTrip` | bot.py:535 | Reading back the digits written for a natural number gives that number. |
| `Numerals.ParseIntRoundTrip` | bot.py:526-535 | `int(str(n)) == n` for every integer, so the id confirmed to the operator is the id that was parsed. |
| `Numerals.ParseIntSigned` | bot.py:526 | A signed literal is worth the value of its digits, negated for `-`: `+5` reads as 5 and `-07` as -7. |
| `Numerals.NatDigitsNoLeadingZero` | bot.py:535 | The digits written for a natural number start with `0` exactly when the number is 0. |
| `Numerals.IntToStringNoLeadingZero` | bot.py:535 | `str(n)` has no leading zero: the first character after an optional `-` is `0` exactly when `n` is 0, and 0 is written as `0` alone, so a leading `0` occurs only in `"0"` itself. |
| `Numerals.IntToStringInjective` | bot.py:535 | Two confirmations show the same id text only when they confirm the same user. |
| `Audit.Truncate` | bot.py:242 | Stored content is never longer than 100 characters and is a prefix of the original. Content that fits is kept whole; longer content is cut to exactly 100 characters. |
| `Audit.Append` | bot.py:252-257 | After an append the log holds at most 1000 records and the new record is last. The records before it are the newest ones of the old log, and nothing is dropped while the log is below capacity. |
| `Audit.LogMessage` | bot.py:234-264 | `log_message` adds one record with the given time, user, name, type and truncated content, and keeps the older records as a suffix of the previous log. |
| `Audit.AppendAllIsWindow` | bot.py:252-257 | Appending records one at a time to a log within capacity gives exactly the newest 1000 records of the old log followed by the new ones, in arrival order. |
| `Audit.EvictsOldestFirst` | bot.py:255-257 | Starting from an empty log, after 1000 + k appends the first k records are gone and the rest remain in order. |
| `Classifier.Classify` | bot.py:446-472 | The type is never `command` or `callback`. A text message's summary is its text. Document and sticker summaries carry the file name and the emoji. Photo, voice, video, audio and animation have the fixed tags `[图片]`, `[语音消息]`, `[视频]`, `[音频]` and `[动画]`, and the fallback is `[未知消息类型]`. |
| `Classifier.ClassifyPicksFirstPresent` | bot.py:446-472 | The chosen type is present in the message and comes first among those present, in the order text, photo, document, voice, video, audio, sticker, animation. `unknown` is chosen exactly when none is present. |
| `Classifier.FilteredMessagesAreKnown` | bot.py:555-581 | The type is known exactly when the message has text or one of the seven media kinds the handler filters accept. |
| `Classifier.TextWinsOverMedia` | bot.py:446-448 | A message with text is logged as text with its full text as summary, whatever media it also carries. |
| `Classifier.DocumentSummaryInjective` | bot.py:452-454 | Two document summaries are equal only when they show the same file name, where a missing name is shown as `未知文件`. |
| `Profiles.Update` | bot.py:266-283 | The sender's entry is replaced by their current identity and the time of the update, with the count one more than before (0 if the sender is new). The keys grow by the sender's id only, and every other profile is unchanged. The returned profile is the stored one. |
| `Profiles.UpdateAllCounts` | bot.py:266-283 | After any sequence of updates, each user's count is the earlier count plus the number of updates for that user. A user with no updates keeps their profile exactly. |
| `Config.Load` | bot.py:130-155 | The token is present exactly when both options exist and the token is not the placeholder. The operator id is present exactly when both options exist, the id is not its placeholder, and it parses as an integer, in which case it is that integer. |
| `Config.LoadReadsWrittenAdminId` | bot.py:143-150 | An operator id written as `str(n)` is loaded as `n`. |
| `Config.ModeOf` | bot.py:625 | Operator handlers are registered exactly when the id is present and non-zero (Python truthiness), and they are for that id. |
| `ReplyParser.Parse` | bot.py:520-526 | The text is ignored exactly when it is empty, does not start with `@`, or has no space. Otherwise the token between `@` and the first space decides the outcome: if it is not an integer the text is a format error; if it is, the reply is addressed to that integer with everything after the first space as the body. |
| `ReplyParser.ParseCompose` | bot.py:520-531 | For every id and body, `@<str(id)> <body>` is read as a reply to that id with exactly that body, spaces in the body included. |
| `ReplyParser.ComposeParse` | bot.py:522-525 | An addressed text is exactly `@`, the id token, one space and the body. Parsing loses nothing. |
| `ReplyParser.ParseHelloWorld` | bot.py:520-526 | `@123 ` followed by any body, such as `@123 hello world`, sends that body to user 123. |
| `ReplyParser.ParseThanks` | bot.py:520-526 | `@555 ` followed by any body, such as `@555 Thanks for reaching out`, sends that body to user 555. |
| `ReplyParser.ParseKeepsSpaces` | bot.py:522-525 | `@123 ` sends an empty body, and `@123  two` sends ` two` with its leading space. |
| `ReplyParser.ParseIgnored` | bot.py:520-523 | `@123`, `hello` and `hello @1 x` are ignored. |
| `ReplyParser.ParseMalformed` | bot.py:524-540 | `@abc hi` is a format error. |
| `ReplyParser.ParseEmptyToken` | bot.py:524-540 | `@ hi`, whose id token is empty, is a format error. |
| `Handlers.Start` | bot.py:285-322 | `/start` counts the user, audits `/start` as a command, and replies with the greeting and the menu. |
| `Handlers.GetUserId` | bot.py:324-350 | `/id` counts the user, audits `/id`, and replies with the profile as just updated. |
| `Handlers.ShowMenu` | bot.py:417-435 | `/menu` audits `/menu` and shows the menu. The profile store is unchanged. |
| `Handlers.PressButton` | bot.py:357-415 | An answered button press audits its data, whatever the data is. `get_id` also counts the user and shows the updated profile. `contact_support` and `help` show their texts. Any other data changes no message and no profile. |
| `Handlers.HandleCallback` | bot.py:352-415 | Answering the button is always the first call. If it fails, nothing else happens: no record, no profile change, no further call. Otherwise the press data is audited, and only `get_id` counts the user. At most one edit follows, and none for unknown data. After a successful answer, the remaining calls are exactly those of the pressed button. |
| `Handlers.ForwardCalls` | bot.py:488-508 | The order is header, forward, then acknowledgement: with three or more calls the second is the forward, and with four the last two are the success acknowledgement and then the failure notice. The header is always attempted first, and it and the forward go only to the operator. The forward is attempted exactly when the header got through. The user gets the success acknowledgement exactly when both got through, and the failure notice exactly when any of header, forward or acknowledgement failed. The last call is always one of the two notices, and no call goes to another user. Every call before the last succeeded, except a failed call directly followed by the failure notice, so the sequence stops at the first failure. |
| `Handlers.ForwardToAdmin` | bot.py:437-508 | A user's message counts the user and audits the message's classification, and then makes the forwarding calls. |
| `Handlers.RelayCalls` | bot.py:529-544 | The body, prefixed `📨 客服回复：`, is sent to the target first. The confirmation naming the target is attempted exactly when that send succeeded. A failed send, or a failed confirmation, is answered with `❌ 发送失败: ` and that call's error text. Every call after the first is a reply to the operator. |
| `Handlers.HandleAdminReply` | bot.py:510-544 | Neither collection changes. Nothing happens when the sender is not the operator, the text is empty, or the text is not addressed. A user is messaged exactly for a well-formed reply, and that relay goes to the parsed target with the parsed body. A bad id gets only the format error. |
| `Handlers.RelaysAddressedReply` | bot.py:526-535 | When the send and the confirmation both succeed, a well-formed reply produces exactly those two calls. |
| `Handlers.ReplyThanksReachesUser` | bot.py:510-537 | The operator's `@555 <body>`, such as `@555 Thanks for reaching out`, delivers the prefixed body to user 555 and confirms `✅ 已回复用户 555`. |
| `Handlers.HandleNoAdminMessage` | bot.py:546-592 | Without an operator, a message counts the user, audits its classification, and is answered with the no-operator notice. |
| `Dispatch.RouteOf` | bot.py:619-654 | The three commands reach their handlers, and any other command reaches none. Button presses reach the callback handler. With an operator, the operator's text reaches the reply handler, and other users' text or media reaches the forwarder. Without one, any text or media reaches the no-operator handler. Nothing else reaches a handler. |
| `Dispatch.RoutesFollowClassification` | bot.py:625-654 | A message reaches a message handler exactly when its type is known, and the operator's reply handler sees only text. |
| `Dispatch.CommandStep` | bot.py:619-621 | A command changes the profile store exactly when it is `/start` or `/id`, and it is audited exactly when it is one of the three commands. It only replies. `CommandReachesItsHandler` states which handler each command reaches. |
| `Dispatch.CallbackStep` | bot.py:622 | A button press is audited exactly when its answer succeeds, and counts the user only for an answered `get_id`. Its calls only answer or edit the pressed message. `PressReachesHandleCallback` states that the whole step is `handle_callback`'s. |
| `Dispatch.OperatorStep` | bot.py:625-641 | With an operator, only other users' messages are relayed to the operator, and only the operator's own messages reach a user. Forwarded messages are counted and audited and make exactly the forwarding calls. The operator's replies change nothing. |
| `Dispatch.NoOperatorStep` | bot.py:642-654 | Without an operator, an accepted message is counted, audited and answered with exactly the no-operator notice. Any other message does nothing. |
| `Dispatch.Step` | bot.py:614-654 | For every event, the profile store changes exactly when the handler reached calls `update_user_info`, and the log grows by exactly that handler's record when it calls `log_message`. Relays go one way each, and an event no handler accepts changes nothing. Which handler each event reaches, and so which calls it makes, is stated by `CommandReachesItsHandler`, `PressReachesHandleCallback`, `OperatorTextIsAReply`, `UserMessageIsForwarded` and `MessageMeetsNoAdmin`. |
| `Dispatch.CommandReachesItsHandler` | bot.py:619-621 | In either mode, `/start`, `/id` and `/menu` are handled, whole, by `start`, `get_user_id` and `show_menu`. |
| `Dispatch.PressReachesHandleCallback` | bot.py:622 | In either mode, every button press is handled, whole, by `handle_callback`, outward calls included. |
| `Dispatch.RunCountsEachAttributedEvent` | bot.py:266-283 | Over any run of events, each user's count grows by exactly the number of handled events that counted them. |
| `Dispatch.RunLogIsWindow` | bot.py:234-264 | Over any run of events, the log is the old log followed by the run's audit records, in arrival order, cut to the newest 1000. |
| `Dispatch.LoggedIsAppend` | bot.py:252-257 | The log relation the handler contracts use allows exactly one result: the log `log_message` builds. |
| `Dispatch.CountedIsUpdate` | bot.py:266-283 | The profile relation the handler contracts use allows exactly one result: the store `update_user_info` builds. |
| `Dispatch.MessageEffectsIgnoreTransport` | bot.py:441-508 | A message's effect on the profiles and the log does not depend on whether any outward call fails. |
| `Dispatch.OperatorTextIsAReply` | bot.py:625-629 | Any non-empty text from the operator is handled by the reply handler. |
| `Dispatch.UserMessageIsForwarded` | bot.py:631-641 | With an operator, another user's text or media is handled by `forward_to_admin`: the user is counted, the message is audited, and the forwarding calls are made. |
| `Dispatch.MessageMeetsNoAdmin` | bot.py:642-654 | Without an operator, any text or media is handled by `handle_no_admin_message`. |

## Left out

- File I/O and JSON persistence. The profile store and the audit log are values passed in and returned; read errors, write errors and their swallowed exceptions are not modelled.
- The wording of fixed texts (the greeting, the menu prompt, the support and help texts, the no-operator notice, the configured `forward_success` and `forward_failed`), Markdown, and inline keyboards. These are named `Notice` values; `Reply(_, true)` marks a reply that carries the menu.
- Handlers.ForwardCalls: the operator header is modelled by its parts (chat, sender, message date), not by its formatted text.
- Handlers.GetUserId: the profile card is modelled as the profile value, not by its formatted text (the display name, the `[:19]` cut of the time).
- Logging through `logging`, and the polling loop of the Telegram library. The library's routing is modelled only as the first-match handler table `run` registers.
- Clocks: both `datetime.now()` reads while an event is handled are one `now` supplied with the event.
- `int()` is modelled on ASCII digits with an optional sign. Python also accepts surrounding whitespace, underscores between digits and non-ASCII digits.
- Events cover only new messages, and a command is its exact command word. The chat library's case-insensitive command matching, arguments after the command, `@botname` suffixes, and edited messages and channel posts (which `allowed_updates=Update.ALL_TYPES` lets through, while the handlers read `update.message` and `update.effective_user`) are not modelled.
- A callback with no data, and the library's exceptions inside `except` handlers (a failing failure notice), are not modelled.
- The configuration's `[messages]` and `[data]` sections are assumed present, and the loop in `run` that waits for a token is not modelled. Only the registered handler table is.
- `check_and_create_config`, `create_default_config`, `setup_logging`, `setup_directories`, `load_user_data` and `save_user_data` are file-system set-up around the core.

=== FILE: audit.dfy ===
/**
 * The bounded audit log kept by `log_message`: one record per inbound command,
 * callback or message, content cut to 100 characters, only the newest 1000
 * records kept, oldest evicted first.
 */
module Audit {
  import opened Base

  /** Longest content stored in a record, in characters (code points). */
  const ContentLimit: nat := 100

  /** Most records the log keeps. */
  const Capacity: nat := 1000

  /** The `message_type` written into a record. */
  datatype MessageType =
    | Text | Photo | Document | Voice | Video | Audio | Sticker | Animation | Unknown
    | Command | Callback

  datatype AuditRecord = AuditRecord(
    timestamp: Timestamp,
    userId: int,
    username: Option<string>,
    kind: MessageType,
    content: string)

  /** The content as stored: its first `ContentLimit` characters. */
  function Truncate(content: string): (r: string)
    ensures |r| <= ContentLimit
    ensures r <= content
    ensures |content| <= ContentLimit ==> r == content
    ensures |content| > ContentLimit ==> |r| == ContentLimit
  {
    if |content| > ContentLimit then content[..ContentLimit] else content
  }

  /** The newest `Capacity` elements of `s`, in order. */
  function Window(s: seq<AuditRecord>): (w: seq<AuditRecord>)
  {
    if |s| > Capacity then s[|s| - Capacity..] else s
  }

  /** Appending one record: add it at the end, then keep only the newest `Capacity`. */
  function Append(log: seq<AuditRecord>, entry: AuditRecord): (r: seq<AuditRecord>)
    ensures |r| <= Capacity
    ensures |r| == if |log| < Capacity then |log| + 1 else Capacity
    ensures r[|r| - 1] == entry
    ensures r[..|r| - 1] == log[|log| - (|r| - 1)..]
    ensures |log| < Capacity ==> r == log + [entry]
  {
    var grown := log + [entry];
    if |grown| > Capacity then grown[|grown| - Capacity..] else grown
  }

  /** `log_message`: build the record for one event and append it. */
  function LogMessage(log: seq<AuditRecord>, now: Timestamp, userId: int, username: Option<string>,
                      kind: MessageType, content: string): (r: seq<AuditRecord>)
    ensures |r| == if |log| < Capacity then |log| + 1 else Capacity
    ensures r[|r| - 1] == AuditRecord(now, userId, username, kind, Truncate(content))
    ensures r[..|r| - 1] == log[|log| - (|r| - 1)..]
  {
    Append(log, AuditRecord(now, userId, username, kind, Truncate(content)))
  }

  /** Appending a batch of records one after another, oldest first. */
  function AppendAll(log: seq<AuditRecord>, entries: seq<AuditRecord>): seq<AuditRecord>
  {
    if |entries| == 0 then log
    else Append(AppendAll(log, entries[..|entries| - 1]), entries[|entries| - 1])
  }

  /** One append is the window of the grown log. */
  lemma AppendIsWindow(log: seq<AuditRecord>, entry: AuditRecord)
    ensures Append(log, entry) == Window(log + [entry])
  {
  }

  /** Cutting to the window before an append loses nothing the window after it keeps. */
  lemma WindowOfWindow(s: seq<AuditRecord>, entry: AuditRecord)
    ensures Window(Window(s) + [entry]) == Window(s + [entry])
  {
  }

  /**
   * Appending records one by one to a log within capacity keeps exactly the
   * newest `Capacity` records of the old log followed by the new ones, in
   * arrival order.
   */
  lemma {:induction false} AppendAllIsWindow(log: seq<AuditRecord>, entries: seq<AuditRecord>)
    requires |log| <= Capacity
    ensures AppendAll(log, entries) == Window(log + entries)
  {
    if |entries| == 0 {
      assert log + entries == log;
    } else {
      var front := entries[..|entries| - 1];
      var last := entries[|entries| - 1];
      calc {
        AppendAll(log, entries);
        Append(AppendAll(log, front), last);
        { AppendAllIsWindow(log, front); }
        Append(Window(log + front), last);
        { AppendIsWindow(Window(log + front), last); }
        Window(Window(log + front) + [last]);
        { WindowOfWindow(log + front, last); }
        Window(log + front + [last]);
        { assert log + front + [last] == log + entries; }
        Window(log + entries);
      }
    }
  }

  /**
   * Starting from an empty log, after `Capacity + k` appends the `k` oldest
   * records are gone and the newest `Capacity` remain, in arrival order.
   */
  lemma EvictsOldestFirst(entries: seq<AuditRecord>, k: nat)
    requires |entries| == Capacity + k
    ensures AppendAll([], entries) == entries[k..]
  {
    AppendAllIsWindow([], entries);
    assert [] + entries == entries;
  }
}

=== FILE: base.dfy ===
/** Values shared by every part of the relay bot: optional values and timestamps. */
module Base {

  /** An optional value; the bot's `None` fields (username, last name, file name, ...). */
  datatype Option<+T> = None | Some(value: T)

  /** Wall-clock readings are opaque to the model: the ISO text the bot stores. */
  type Timestamp = string

  /** Python truthiness of an optional string: neither `None` nor the empty string. */
  predicate Truthy(o: Option<string>) {
    o.Some? && o.value != ""
  }

  /** Python's `o or fallback` for an optional string. */
  function OrElse(o: Option<string>, fallback: string): (r: string)
    ensures Truthy(o) ==> r == o.value
    ensures !Truthy(o) ==> r == fallback
  {
    if o.Some? && o.value != "" then o.value else fallback
  }
}

=== FILE: classifier.dfy ===
/**
 * The message classifier shared by `forward_to_admin` and
 * `handle_no_admin_message`: the first present payload variant, in a fixed
 * priority order, decides the audit type and summary of a message.
 */
module Classifier {
  import opened Base
  import opened Audit

  datatype DocumentInfo = DocumentInfo(fileName: Option<string>)

  datatype StickerInfo = StickerInfo(emoji: Option<string>)

  /**
   * The parts of an inbound message the bot looks at. Several may be present
   * at once; `text` counts only when it is non-empty (Python truthiness).
   */
  datatype Payload = Payload(
    text: Option<string>,
    photo: bool,
    document: Option<DocumentInfo>,
    voice: bool,
    video: bool,
    audio: bool,
    sticker: Option<StickerInfo>,
    animation: bool)

  datatype Classification = Classification(kind: MessageType, summary: string)

  /**
   * The order in which the chain tests the variants: text first, animation
   * last, and `Unknown` after all of them.
   */
  function Rank(k: MessageType): nat {
    match k
    case Text => 0
    case Photo => 1
    case Document => 2
    case Voice => 3
    case Video => 4
    case Audio => 5
    case Sticker => 6
    case Animation => 7
    case _ => 8
  }

  const UnknownFileName: string := "未知文件"
  const UnknownSummary: string := "[未知消息类型]"

  /** Whether the payload carries variant `k`. */
  predicate Has(p: Payload, k: MessageType) {
    match k
    case Text => Truthy(p.text)
    case Photo => p.photo
    case Document => p.document.Some?
    case Voice => p.voice
    case Video => p.video
    case Audio => p.audio
    case Sticker => p.sticker.Some?
    case Animation => p.animation
    case _ => false
  }

  /** Some variant other than text is present: what the bot's media filter accepts. */
  predicate HasMedia(p: Payload) {
    p.photo || p.document.Some? || p.voice || p.video || p.audio || p.sticker.Some? || p.animation
  }

  function DocumentSummary(d: DocumentInfo): string {
    "[文档: " + OrElse(d.fileName, UnknownFileName) + "]"
  }

  function StickerSummary(s: StickerInfo): string {
    "[贴纸: " + OrElse(s.emoji, "") + "]"
  }

  /**
   * The if/elif chain (the audit type and summary of a message). Which kind
   * wins is stated by `ClassifyPicksFirstPresent`.
   */
  function Classify(p: Payload): (c: Classification)
    ensures c.kind != Command && c.kind != Callback
    ensures c.kind == Text ==> Truthy(p.text) && c.summary == p.text.value
    ensures c.kind == Document ==> p.document.Some? && c.summary == DocumentSummary(p.document.value)
    ensures c.kind == Sticker ==> p.sticker.Some? && c.summary == StickerSummary(p.sticker.value)
    ensures c.kind == Unknown ==> c.summary == UnknownSummary
    ensures c.kind == Photo ==> c.summary == "[图片]"
    ensures c.kind == Voice ==> c.summary == "[语音消息]"
    ensures c.kind == Video ==> c.summary == "[视频]"
    ensures c.kind == Audio ==> c.summary == "[音频]"
    ensures c.kind == Animation ==> c.summary == "[动画]"
  {
    if Truthy(p.text) then Classification(Text, p.text.value)
    else if p.photo then Classification(Photo, "[图片]")
    else if p.document.Some? then Classification(Document, DocumentSummary(p.document.value))
    else if p.voice then Classification(Voice, "[语音消息]")
    else if p.video then Classification(Video, "[视频]")
    else if p.audio then Classification(Audio, "[音频]")
    else if p.sticker.Some? then Classification(Sticker, StickerSummary(p.sticker.value))
    else if p.animation then Classification(Animation, "[动画]")
    else Classification(Unknown, UnknownSummary)
  }

  /**
   * The kind is the present variant that comes first in the test order (text,
   * photo, document, voice, video, audio, sticker, animation), or `Unknown`
   * when no variant is present.
   */
  lemma ClassifyPicksFirstPresent(p: Payload)
    ensures Classify(p).kind == Unknown <==> forall k :: !Has(p, k)
    ensures Classify(p).kind != Unknown ==> Has(p, Classify(p).kind)
    ensures forall k :: Has(p, k) ==> Rank(Classify(p).kind) <= Rank(k)
  {
    var c := Classify(p);
    assert c.kind != Unknown ==> Has(p, c.kind);
  }

  /** Every message the bot's text-or-media filters accept gets a known type. */
  lemma FilteredMessagesAreKnown(p: Payload)
    ensures Classify(p).kind != Unknown <==> Truthy(p.text) || HasMedia(p)
  {
  }

  /** A payload with both text and a photo is text: the variant order decides. */
  lemma TextWinsOverMedia(p: Payload)
    requires Truthy(p.text)
    ensures Classify(p) == Classification(Text, p.text.value)
  {
  }

  /** A document summary gives back the file name shown in it. */
  lemma {:induction false} DocumentSummaryInjective(d: DocumentInfo, e: DocumentInfo)
    requires DocumentSummary(d) == DocumentSummary(e)
    ensures OrElse(d.fileName, UnknownFileName) == OrElse(e.fileName, UnknownFileName)
  {
    var a := OrElse(d.fileName, UnknownFileName);
    var b := OrElse(e.fileName, UnknownFileName);
    var pre := "[文档: ";
    assert |pre + a + "]"| == |pre + b + "]"|;
    assert a == (pre + a + "]")[|pre|..|pre| + |a|];
    assert b == (pre + b + "]")[|pre|..|pre| + |b|];
  }
}

=== FILE: config.dfy ===
/**
 * Configuration as `load_config` resolves it, and the routing mode the handler
 * table is built for. The mode is fixed once, when the handlers are registered.
 */
module Config {
  import opened Base
  import Numerals

  const TokenPlaceholder: string := "YOUR_BOT_TOKEN_HERE"
  const AdminPlaceholder: string := "YOUR_ADMIN_USER_ID_HERE"

  /**
   * The `[bot]` values as read from the configuration file; `None` where the
   * section or option is missing (`config.get` raises).
   */
  datatype RawConfig = RawConfig(botToken: Option<string>, adminId: Option<string>)

  /** The resolved values the bot runs with; `None` means "not configured". */
  datatype Settings = Settings(botToken: Option<string>, adminId: Option<int>)

  /**
   * `load_config`: placeholders and a non-integer admin id become absent; a
   * missing option makes both values absent, since both reads share one `try`.
   */
  function Load(raw: RawConfig): (s: Settings)
    ensures s.botToken.Some? <==>
      raw.botToken.Some? && raw.adminId.Some? && raw.botToken.value != TokenPlaceholder
    ensures s.botToken.Some? ==> s.botToken == raw.botToken
    ensures s.adminId.Some? <==>
      raw.botToken.Some? && raw.adminId.Some? && raw.adminId.value != AdminPlaceholder
      && Numerals.IsIntLiteral(raw.adminId.value)
    ensures s.adminId.Some? ==> Numerals.ParseInt(raw.adminId.value) == s.adminId
  {
    if raw.botToken.None? || raw.adminId.None? then Settings(None, None)
    else
      var token := if raw.botToken.value == TokenPlaceholder then None else raw.botToken;
      var admin := if raw.adminId.value == AdminPlaceholder then None else Numerals.ParseInt(raw.adminId.value);
      Settings(token, admin)
  }

  /** An admin id written the way `str` writes integers is read back unchanged. */
  lemma LoadReadsWrittenAdminId(token: string, id: int)
    ensures Load(RawConfig(Some(token), Some(Numerals.IntToString(id)))).adminId == Some(id)
  {
    Numerals.ParseIntRoundTrip(id);
    assert Numerals.IntToString(id) != AdminPlaceholder by {
      assert AdminPlaceholder[0] == 'Y';
    }
  }

  /** Which column of the routing table applies, fixed when the handlers are registered. */
  datatype Mode = WithAdmin(admin: int) | NoAdmin

  /** The handler table tests `admin_id` for truthiness: absent and 0 both mean no operator. */
  function ModeOf(s: Settings): (m: Mode)
    ensures m.WithAdmin? <==> s.adminId.Some? && s.adminId.value != 0
    ensures m.WithAdmin? ==> m.admin == s.adminId.value
  {
    if s.adminId.Some? && s.adminId.value != 0 then WithAdmin(s.adminId.value) else NoAdmin
  }

}

=== FILE: dispatch.dfy ===
/**
 * The handler table registered in `run` and the bot as a state machine: one
 * inbound event at a time, in arrival order, with the routing mode fixed at
 * registration.
 */
module Dispatch {
  import opened Base
  import opened Audit
  import opened Classifier
  import opened Profiles
  import opened Config
  import opened Handlers

  /** An inbound update, as the chat platform delivers it. */
  datatype Event =
    | CommandEvent(from: User, command: string)                     // a message led by a bot command, e.g. "/start"
    | CallbackEvent(from: User, data: string)                       // a menu button press
    | MessageEvent(from: User, payload: Payload, date: Timestamp)   // any other message

  /** Which handler an event reaches. */
  datatype Route =
    | ToStart | ToGetUserId | ToShowMenu | ToCallback
    | ToAdminReply | ToForward | ToNoAdmin
    | Unhandled

  /**
   * The first registered handler whose filter accepts the event: the three
   * command handlers, the callback handler, then either the operator-aware
   * message handlers or the no-operator ones.
   */
  function RouteOf(mode: Mode, ev: Event): (r: Route)
    ensures ev.CommandEvent? ==>
      (r == ToStart <==> ev.command == "/start") && (r == ToGetUserId <==> ev.command == "/id")
      && (r == ToShowMenu <==> ev.command == "/menu")
      && (r == Unhandled <==> ev.command != "/start" && ev.command != "/id" && ev.command != "/menu")
    ensures r == ToCallback <==> ev.CallbackEvent?
    ensures r == ToAdminReply ==> mode.WithAdmin? && ev.from.id == mode.admin
    ensures r == ToForward ==> mode.WithAdmin? && ev.from.id != mode.admin
    ensures r == ToNoAdmin ==> mode.NoAdmin?
    ensures ev.MessageEvent? && mode.NoAdmin? ==>
      (r == ToNoAdmin <==> Truthy(ev.payload.text) || HasMedia(ev.payload))
    ensures ev.MessageEvent? && mode.WithAdmin? && ev.from.id != mode.admin ==>
      (r == ToForward <==> Truthy(ev.payload.text) || HasMedia(ev.payload))
    ensures ev.MessageEvent? && mode.WithAdmin? && ev.from.id == mode.admin ==>
      (r == ToAdminReply <==> Truthy(ev.payload.text))
    ensures ev.MessageEvent? <==> r == ToAdminReply || r == ToForward || r == ToNoAdmin || (r == Unhandled && !ev.CommandEvent?)
  {
    match ev
    case CommandEvent(_, command) =>
      if command == "/start" then ToStart
      else if command == "/id" then ToGetUserId
      else if command == "/menu" then ToShowMenu
      else Unhandled
    case CallbackEvent(_, _) => ToCallback
    case MessageEvent(from, p, _) =>
      match mode
      case WithAdmin(admin) =>
        if Truthy(p.text) && from.id == admin then ToAdminReply
        else if Truthy(p.text) && from.id != admin then ToForward
        else if HasMedia(p) && from.id != admin then ToForward
        else Unhandled
      case NoAdmin =>
        if Truthy(p.text) || HasMedia(p) then ToNoAdmin
        else Unhandled
  }

  /**
   * The message handlers see exactly the messages the classifier knows: an
   * `Unknown` payload reaches no handler, and the operator's handler sees
   * only text. The operator's media reaches no handler at all.
   */
  lemma RoutesFollowClassification(mode: Mode, ev: Event)
    requires ev.MessageEvent?
    ensures mode.NoAdmin? ==> (RouteOf(mode, ev) == ToNoAdmin <==> Classify(ev.payload).kind != Unknown)
    ensures mode.WithAdmin? && ev.from.id != mode.admin ==>
      (RouteOf(mode, ev) == ToForward <==> Classify(ev.payload).kind != Unknown)
    ensures mode.WithAdmin? && ev.from.id == mode.admin ==>
      (RouteOf(mode, ev) == ToAdminReply <==> Classify(ev.payload).kind == Text)
      && (RouteOf(mode, ev) != ToAdminReply ==> RouteOf(mode, ev) == Unhandled)
  {
  }

  /** Whether handling `ev` calls `update_user_info`. */
  predicate CountsSender(mode: Mode, ev: Event, net: Network) {
    match RouteOf(mode, ev)
    case ToStart | ToGetUserId | ToForward | ToNoAdmin => true
    case ToCallback => ev.data == "get_id" && net(AnswerCallback).Delivered?
    case _ => false
  }

  /** Whether handling `ev` calls `log_message`. */
  predicate Audited(mode: Mode, ev: Event, net: Network) {
    match RouteOf(mode, ev)
    case ToStart | ToGetUserId | ToShowMenu | ToForward | ToNoAdmin => true
    case ToCallback => net(AnswerCallback).Delivered?
    case _ => false
  }

  /** The record `log_message` writes for an audited event. */
  function EventEntry(ev: Event, now: Timestamp): AuditRecord {
    match ev
    case CommandEvent(from, command) => Entry(now, from, Command, command)
    case CallbackEvent(from, data) => Entry(now, from, Callback, data)
    case MessageEvent(from, payload, _) => MessageEntry(now, from, payload)
  }

  /** The profile store changes exactly when the handler calls `update_user_info`. */
  predicate ProfileEffect(mode: Mode, ev: Event, now: Timestamp, net: Network, before: Store, after: Store) {
    && (CountsSender(mode, ev, net) ==> Counted(before, after, ev.from, now))
    && (!CountsSender(mode, ev, net) ==> after == before)
  }

  /** The audit log changes exactly when the handler calls `log_message`, by one record. */
  predicate LogEffect(mode: Mode, ev: Event, now: Timestamp, net: Network,
                      before: seq<AuditRecord>, after: seq<AuditRecord>) {
    && (Audited(mode, ev, net) ==> Logged(before, after, EventEntry(ev, now)))
    && (!Audited(mode, ev, net) ==> after == before)
  }

  /** Calls that deliver something to the operator on a user's behalf. */
  predicate RelaysToOperator(a: Action) {
    a.SendHeader? || a.ForwardMessage?
  }

  /**
   * Relays go one way each: only a non-operator's message reaches the
   * operator, and only the operator's own message reaches a user (which user
   * is stated by `HandleAdminReply`).
   */
  predicate RelayDirections(mode: Mode, ev: Event, acts: seq<Action>) {
    && (forall a :: a in acts && RelaysToOperator(a) ==>
          mode.WithAdmin? && ev.from.id != mode.admin && a.chat == mode.admin)
    && (forall a :: a in acts && a.SendText? ==>
          mode.WithAdmin? && ev.MessageEvent? && ev.from.id == mode.admin)
  }

  /** The command handlers `/start`, `/id`, `/menu`; other commands reach no handler. */
  function CommandStep(mode: Mode, st: State, ev: Event, now: Timestamp, net: Network): (r: Outcome)
    requires ev.CommandEvent?
    ensures ProfileEffect(mode, ev, now, net, st.profiles, r.state.profiles)
    ensures LogEffect(mode, ev, now, net, st.log, r.state.log)
    ensures forall a :: a in r.actions ==> a.Reply? || a.ReplyCard?
    ensures RouteOf(mode, ev) == Unhandled ==> r == Outcome(st, [])
  {
    match RouteOf(mode, ev)
    case ToStart => Start(st, ev.from, now)
    case ToGetUserId => GetUserId(st, ev.from, now)
    case ToShowMenu => ShowMenu(st, ev.from, now)
    case _ => Outcome(st, [])
  }

  /** The button handler; its calls only ever answer or edit the pressed message. */
  function CallbackStep(mode: Mode, st: State, ev: Event, now: Timestamp, net: Network): (r: Outcome)
    requires ev.CallbackEvent?
    ensures ProfileEffect(mode, ev, now, net, st.profiles, r.state.profiles)
    ensures LogEffect(mode, ev, now, net, st.log, r.state.log)
    ensures forall a :: a in r.actions ==> a.AnswerCallback? || a.EditNotice? || a.EditCard?
  {
    assert RouteOf(mode, ev) == ToCallback;
    assert CountsSender(mode, ev, net) <==> ev.data == "get_id" && net(AnswerCallback).Delivered?;
    assert Audited(mode, ev, net) <==> net(AnswerCallback).Delivered?;
    HandleCallback(st, ev.from, ev.data, now, net)
  }

  /** The message handlers registered when an operator is configured. */
  function OperatorStep(mode: Mode, st: State, ev: Event, now: Timestamp, net: Network): (r: Outcome)
    requires ev.MessageEvent? && mode.WithAdmin?
    ensures ProfileEffect(mode, ev, now, net, st.profiles, r.state.profiles)
    ensures LogEffect(mode, ev, now, net, st.log, r.state.log)
    ensures RelayDirections(mode, ev, r.actions)
    ensures RouteOf(mode, ev) == ToForward ==> r.actions == ForwardCalls(mode.admin, ev.from, ev.date, net)
    ensures RouteOf(mode, ev) == Unhandled ==> r == Outcome(st, [])
  {
    match RouteOf(mode, ev)
    case ToAdminReply =>
      HandleAdminReply(st, mode.admin, ev.from, ev.payload.text, net)
    case ToForward => ForwardToAdmin(st, mode.admin, ev.from, ev.payload, ev.date, now, net)
    case _ => Outcome(st, [])
  }

  /** The message handlers registered when no operator is configured. */
  function NoOperatorStep(mode: Mode, st: State, ev: Event, now: Timestamp, net: Network): (r: Outcome)
    requires ev.MessageEvent? && mode.NoAdmin?
    ensures ProfileEffect(mode, ev, now, net, st.profiles, r.state.profiles)
    ensures LogEffect(mode, ev, now, net, st.log, r.state.log)
    ensures RouteOf(mode, ev) == ToNoAdmin ==> r.actions == [Reply(NoAdminNotice, false)]
    ensures RouteOf(mode, ev) == Unhandled ==> r == Outcome(st, [])
  {
    match RouteOf(mode, ev)
    case ToNoAdmin => HandleNoAdminMessage(st, ev.from, ev.payload, now)
    case _ => Outcome(st, [])
  }

  /** Handle one event: run the handler the table picks, or do nothing. */
  function Step(mode: Mode, st: State, ev: Event, now: Timestamp, net: Network): (r: Outcome)
    ensures ProfileEffect(mode, ev, now, net, st.profiles, r.state.profiles)
    ensures LogEffect(mode, ev, now, net, st.log, r.state.log)
    ensures RelayDirections(mode, ev, r.actions)
    ensures RouteOf(mode, ev) == Unhandled ==> r == Outcome(st, [])
  {
    match ev
    case CommandEvent(_, _) => CommandStep(mode, st, ev, now, net)
    case CallbackEvent(_, _) => CallbackStep(mode, st, ev, now, net)
    case MessageEvent(_, _, _) =>
      match mode
      case WithAdmin(_) => OperatorStep(mode, st, ev, now, net)
      case NoAdmin => NoOperatorStep(mode, st, ev, now, net)
  }

  /** One inbound event together with the clock reading and transport answers it meets. */
  datatype Input = Input(event: Event, now: Timestamp, net: Network)

  /** The state after handling `inputs` one at a time, in order. */
  function Run(mode: Mode, st: State, inputs: seq<Input>): State {
    if |inputs| == 0 then st
    else
      var last := inputs[|inputs| - 1];
      Step(mode, Run(mode, st, inputs[..|inputs| - 1]), last.event, last.now, last.net).state
  }

  /** How many of `inputs` call `update_user_info` for user `id`. */
  function Attributed(mode: Mode, inputs: seq<Input>, id: int): nat {
    if |inputs| == 0 then 0
    else
      var last := inputs[|inputs| - 1];
      Attributed(mode, inputs[..|inputs| - 1], id)
        + (if CountsSender(mode, last.event, last.net) && last.event.from.id == id then 1 else 0)
  }

  /**
   * No count is lost or doubled: after any run of events, a user's
   * `message_count` is the earlier count plus the number of events that
   * counted them.
   */
  lemma {:induction false} RunCountsEachAttributedEvent(mode: Mode, st: State, inputs: seq<Input>, id: int)
    ensures PriorCount(Run(mode, st, inputs).profiles, id) == PriorCount(st.profiles, id) + Attributed(mode, inputs, id)
  {
    if |inputs| > 0 {
      RunCountsEachAttributedEvent(mode, st, inputs[..|inputs| - 1], id);
    }
  }

  /** The records a run of events appends, oldest first. */
  function AuditTrail(mode: Mode, inputs: seq<Input>): seq<AuditRecord> {
    if |inputs| == 0 then []
    else
      var last := inputs[|inputs| - 1];
      AuditTrail(mode, inputs[..|inputs| - 1])
        + (if Audited(mode, last.event, last.net) then [EventEntry(last.event, last.now)] else [])
  }

  /**
   * The audit log after a run is the newest `Capacity` records of the old log
   * followed by the run's records, in arrival order; it never exceeds capacity.
   */
  lemma {:induction false} RunLogIsWindow(mode: Mode, st: State, inputs: seq<Input>)
    requires |st.log| <= Capacity
    ensures Run(mode, st, inputs).log == AppendAll(st.log, AuditTrail(mode, inputs))
    ensures |Run(mode, st, inputs).log| <= Capacity
  {
    if |inputs| > 0 {
      var front := inputs[..|inputs| - 1];
      var last := inputs[|inputs| - 1];
      RunLogIsWindow(mode, st, front);
      var before := Run(mode, st, front);
      var trail := AuditTrail(mode, front);
      if Audited(mode, last.event, last.net) {
        var entry := EventEntry(last.event, last.now);
        LoggedIsAppend(before.log, Run(mode, st, inputs).log, entry);
        assert (trail + [entry])[..|trail + [entry]| - 1] == trail;
      } else {
        assert trail + [] == trail;
      }
    }
  }

  /** `Logged` pins down exactly one log: the one `Append` builds. */
  lemma LoggedIsAppend(before: seq<AuditRecord>, after: seq<AuditRecord>, entry: AuditRecord)
    requires Logged(before, after, entry)
    ensures after == Append(before, entry)
  {
  }

  /**
   * Transport failures never lose the user's profile update or audit record:
   * a user's message has the same effect on both collections whatever the
   * transport answers.
   */
  lemma MessageEffectsIgnoreTransport(mode: Mode, st: State, from: User, payload: Payload, date: Timestamp,
                                      now: Timestamp, net1: Network, net2: Network)
    ensures Step(mode, st, MessageEvent(from, payload, date), now, net1).state
         == Step(mode, st, MessageEvent(from, payload, date), now, net2).state
  {
  }

  /** `Counted` pins down exactly one store: the one `Update` builds. */
  lemma CountedIsUpdate(before: Store, after: Store, user: User, now: Timestamp)
    requires Counted(before, after, user, now)
    ensures after == Update(before, user, now).store
  {
    var expected := Update(before, user, now).store;
    assert after[user.id] == expected[user.id];
    forall id | id in after
      ensures after[id] == expected[id]
    {
    }
  }

  /** Whatever its content, the operator's non-empty text goes to `handle_admin_reply`. */
  lemma OperatorTextIsAReply(mode: Mode, st: State, ev: Event, now: Timestamp, net: Network)
    requires mode.WithAdmin? && ev.MessageEvent? && ev.from.id == mode.admin && Truthy(ev.payload.text)
    ensures Step(mode, st, ev, now, net) == HandleAdminReply(st, mode.admin, ev.from, ev.payload.text, net)
  {
  }

  /** With an operator, another user's text or media goes to `forward_to_admin`. */
  lemma UserMessageIsForwarded(admin: int, st: State, from: User, payload: Payload, date: Timestamp,
                               now: Timestamp, net: Network)
    requires admin != 0 && from.id != admin
    requires Truthy(payload.text) || HasMedia(payload)
    ensures Step(WithAdmin(admin), st, MessageEvent(from, payload, date), now, net)
         == ForwardToAdmin(st, admin, from, payload, date, now, net)
  {
  }

  /** Without an operator, any text or media goes to `handle_no_admin_message`. */
  lemma MessageMeetsNoAdmin(st: State, from: User, payload: Payload, date: Timestamp,
                            now: Timestamp, net: Network)
    requires Truthy(payload.text) || HasMedia(payload)
    ensures Step(NoAdmin, st, MessageEvent(from, payload, date), now, net)
         == HandleNoAdminMessage(st, from, payload, now)
  {
  }

  /** Each of the three commands is handled by its own handler. */
  lemma CommandReachesItsHandler(mode: Mode, st: State, from: User, now: Timestamp, net: Network)
    ensures Step(mode, st, CommandEvent(from, "/start"), now, net) == Start(st, from, now)
    ensures Step(mode, st, CommandEvent(from, "/id"), now, net) == GetUserId(st, from, now)
    ensures Step(mode, st, CommandEvent(from, "/menu"), now, net) == ShowMenu(st, from, now)
  {
  }

  /** Every button press, in either mode, is handled by `handle_callback`. */
  lemma PressReachesHandleCallback(mode: Mode, st: State, from: User, data: string, now: Timestamp, net: Network)
    ensures Step(mode, st, CallbackEvent(from, data), now, net) == HandleCallback(st, from, data, now, net)
  {
  }
}

=== FILE: handlers.dfy ===
/**
 * The bot's handlers: what each does to the profile store and the audit log,
 * and which outward calls it makes, in order. Outward calls are not performed
 * but listed; whether each one succeeds is decided by a `Network` the caller
 * supplies.
 */
module Handlers {
  import opened Base
  import opened Audit
  import opened Classifier
  import opened Profiles
  import Numerals
  import ReplyParser

  /** How the transport answered one outward call; `error` is the exception's text. */
  datatype Delivery = Delivered | Failed(error: string)

  /** Fixed texts whose exact wording is not modelled. */
  datatype Notice =
    | Welcome          // `/start` greeting
    | MenuPrompt       // `/menu` prompt
    | SupportInfo      // `contact_support` button
    | HelpInfo         // `help` button
    | NoAdminNotice    // no operator configured
    | ForwardSuccess   // configured `forward_success`
    | ForwardFailed    // configured `forward_failed`

  /** One outward call. `Reply*` and `Edit*` answer in the chat the event came from. */
  datatype Action =
    | AnswerCallback
    | Reply(notice: Notice, withMenu: bool)
    | ReplyCard(card: Profile)
    | EditNotice(notice: Notice)
    | EditCard(card: Profile)
    | SendHeader(chat: int, sender: User, date: Timestamp)
    | ForwardMessage(chat: int)
    | SendText(chat: int, text: string)
    | ReplyText(text: string)

  /** The transport's verdict on each outward call. */
  type Network = Action -> Delivery

  /** The two collections the handlers own. */
  datatype State = State(profiles: Store, log: seq<AuditRecord>)

  datatype Outcome = Outcome(state: State, actions: seq<Action>)

  const RelayPrefix: string := "📨 客服回复：\n\n"
  const FormatErrorText: string := "❌ 回复格式错误，请使用: @用户ID 消息内容"
  const SendFailedPrefix: string := "❌ 发送失败: "
  const ConfirmPrefix: string := "✅ 已回复用户 "

  /** The audit record `log_message` writes for `user`. */
  function Entry(now: Timestamp, user: User, kind: MessageType, content: string): AuditRecord {
    AuditRecord(now, user.id, user.username, kind, Truncate(content))
  }

  /** `after` is `before` with `user`'s profile refreshed and counted once more, nothing else touched. */
  predicate Counted(before: Store, after: Store, user: User, now: Timestamp) {
    && after.Keys == before.Keys + {user.id}
    && user.id in after
    && Describes(after[user.id], user, now)
    && after[user.id].messageCount == PriorCount(before, user.id) + 1
    && forall id :: id in before && id != user.id ==> after[id] == before[id]
  }

  /** `after` is `before` with `entry` added last and the oldest records evicted beyond capacity. */
  predicate Logged(before: seq<AuditRecord>, after: seq<AuditRecord>, entry: AuditRecord) {
    && |after| == (if |before| < Capacity then |before| + 1 else Capacity)
    && after[|after| - 1] == entry
    && after[..|after| - 1] == before[|before| - (|after| - 1)..]
  }

  /** `/start`: count the user, audit the command, greet with the menu. */
  function Start(st: State, user: User, now: Timestamp): (r: Outcome)
    ensures Counted(st.profiles, r.state.profiles, user, now)
    ensures Logged(st.log, r.state.log, Entry(now, user, Command, "/start"))
    ensures r.actions == [Reply(Welcome, true)]
  {
    var profiles := Update(st.profiles, user, now).store;
    var log := LogMessage(st.log, now, user.id, user.username, Command, "/start");
    Outcome(State(profiles, log), [Reply(Welcome, true)])
  }

  /** `/id`: count the user, audit the command, reply with the refreshed profile. */
  function GetUserId(st: State, user: User, now: Timestamp): (r: Outcome)
    ensures Counted(st.profiles, r.state.profiles, user, now)
    ensures Logged(st.log, r.state.log, Entry(now, user, Command, "/id"))
    ensures r.actions == [ReplyCard(r.state.profiles[user.id])]
  {
    var updated := Update(st.profiles, user, now);
    var log := LogMessage(st.log, now, user.id, user.username, Command, "/id");
    Outcome(State(updated.store, log), [ReplyCard(updated.info)])
  }

  /** `/menu`: audit the command and show the menu; the profile is not touched. */
  function ShowMenu(st: State, user: User, now: Timestamp): (r: Outcome)
    ensures r.state.profiles == st.profiles
    ensures Logged(st.log, r.state.log, Entry(now, user, Command, "/menu"))
    ensures r.actions == [Reply(MenuPrompt, true)]
  {
    var log := LogMessage(st.log, now, user.id, user.username, Command, "/menu");
    Outcome(State(st.profiles, log), [Reply(MenuPrompt, true)])
  }

  /**
   * What an answered button press does: audit the data whatever it is, then
   * edit the message for the three known buttons; `get_id` also counts the
   * user. Unknown data edits nothing.
   */
  function PressButton(st: State, user: User, data: string, now: Timestamp): (r: Outcome)
    ensures Logged(st.log, r.state.log, Entry(now, user, Callback, data))
    ensures data == "get_id" ==>
      Counted(st.profiles, r.state.profiles, user, now) && r.actions == [EditCard(r.state.profiles[user.id])]
    ensures data != "get_id" ==> r.state.profiles == st.profiles
    ensures data == "contact_support" ==> r.actions == [EditNotice(SupportInfo)]
    ensures data == "help" ==> r.actions == [EditNotice(HelpInfo)]
    ensures r.actions == [] <==> data != "get_id" && data != "contact_support" && data != "help"
  {
    var log := LogMessage(st.log, now, user.id, user.username, Callback, data);
    if data == "get_id" then
      var updated := Update(st.profiles, user, now);
      Outcome(State(updated.store, log), [EditCard(updated.info)])
    else if data == "contact_support" then
      Outcome(State(st.profiles, log), [EditNotice(SupportInfo)])
    else if data == "help" then
      Outcome(State(st.profiles, log), [EditNotice(HelpInfo)])
    else
      Outcome(State(st.profiles, log), [])
  }

  /**
   * `handle_callback`: answer the query first; if that call fails the
   * handler stops there, with nothing audited.
   */
  function HandleCallback(st: State, user: User, data: string, now: Timestamp, net: Network): (r: Outcome)
    ensures |r.actions| > 0 && r.actions[0] == AnswerCallback
    ensures net(AnswerCallback).Failed? ==> r.state == st && r.actions == [AnswerCallback]
    ensures net(AnswerCallback).Delivered? ==>
      && Logged(st.log, r.state.log, Entry(now, user, Callback, data))
      && (data == "get_id" ==> Counted(st.profiles, r.state.profiles, user, now))
      && (data != "get_id" ==> r.state.profiles == st.profiles)
      && |r.actions| <= 2
      && (|r.actions| == 1 <==> data != "get_id" && data != "contact_support" && data != "help")
      && (forall i :: 1 <= i < |r.actions| ==> r.actions[i].EditNotice? || r.actions[i].EditCard?)
    ensures net(AnswerCallback).Delivered? ==> r.actions[1..] == PressButton(st, user, data, now).actions
  {
    if net(AnswerCallback).Failed? then Outcome(st, [AnswerCallback])
    else
      var pressed := PressButton(st, user, data, now);
      Outcome(pressed.state, [AnswerCallback] + pressed.actions)
  }

  /** The audit record of a message: its classification, as both message handlers write it. */
  function MessageEntry(now: Timestamp, user: User, payload: Payload): AuditRecord {
    var c := Classify(payload);
    Entry(now, user, c.kind, c.summary)
  }

  /**
   * The outward calls of `forward_to_admin`: header to the operator, forward
   * of the message, acknowledgement to the user. The first call that fails
   * ends the sequence with the failure notice; a failing acknowledgement is
   * followed by the failure notice too.
   */
  function ForwardCalls(admin: int, user: User, date: Timestamp, net: Network): (acts: seq<Action>)
    ensures 2 <= |acts| <= 4 && acts[0] == SendHeader(admin, user, date)
    ensures ForwardMessage(admin) in acts <==> net(SendHeader(admin, user, date)).Delivered?
    ensures Reply(ForwardSuccess, false) in acts <==>
      net(SendHeader(admin, user, date)).Delivered? && net(ForwardMessage(admin)).Delivered?
    ensures Reply(ForwardFailed, false) in acts <==>
      !(net(SendHeader(admin, user, date)).Delivered? && net(ForwardMessage(admin)).Delivered?
        && net(Reply(ForwardSuccess, false)).Delivered?)
    ensures acts[|acts| - 1] == Reply(ForwardSuccess, false) || acts[|acts| - 1] == Reply(ForwardFailed, false)
    ensures forall a :: a in acts && (a.SendHeader? || a.ForwardMessage?) ==> a.chat == admin
    ensures forall a :: a in acts ==> !a.SendText?
    ensures |acts| >= 3 ==> acts[1] == ForwardMessage(admin)
    ensures |acts| == 4 ==> acts[2..] == [Reply(ForwardSuccess, false), Reply(ForwardFailed, false)]
    ensures forall i :: 0 <= i < |acts| - 1 ==>
      net(acts[i]).Delivered? || (i == |acts| - 2 && acts[i + 1] == Reply(ForwardFailed, false))
  {
    var header := SendHeader(admin, user, date);
    var forward := ForwardMessage(admin);
    var ack := Reply(ForwardSuccess, false);
    var failed := Reply(ForwardFailed, false);
    if net(header).Failed? then [header, failed]
    else if net(forward).Failed? then [header, forward, failed]
    else if net(ack).Failed? then [header, forward, ack, failed]
    else [header, forward, ack]
  }

  /**
   * `forward_to_admin`: count the user and audit the message before any
   * outward call, so the transport's answers change only the calls made,
   * never the profile or the record.
   */
  function ForwardToAdmin(st: State, admin: int, user: User, payload: Payload, date: Timestamp,
                          now: Timestamp, net: Network): (r: Outcome)
    ensures Counted(st.profiles, r.state.profiles, user, now)
    ensures Logged(st.log, r.state.log, MessageEntry(now, user, payload))
    ensures r.actions == ForwardCalls(admin, user, date, net)
  {
    var profiles := Update(st.profiles, user, now).store;
    var c := Classify(payload);
    var log := LogMessage(st.log, now, user.id, user.username, c.kind, c.summary);
    Outcome(State(profiles, log), ForwardCalls(admin, user, date, net))
  }

  /** The operator's confirmation after a relayed reply; it names the target id. */
  function Confirmation(target: int): string {
    ConfirmPrefix + Numerals.IntToString(target)
  }

  /**
   * The outward calls of a well-formed operator reply: relay the body to the
   * target, then confirm to the operator; the first failing call is answered
   * with the send-failure text carrying its error.
   */
  function RelayCalls(target: int, body: string, net: Network): (acts: seq<Action>)
    ensures 2 <= |acts| <= 3 && acts[0] == SendText(target, RelayPrefix + body)
    ensures ReplyText(Confirmation(target)) in acts <==> net(SendText(target, RelayPrefix + body)).Delivered?
    ensures net(SendText(target, RelayPrefix + body)).Failed? ==>
      acts == [SendText(target, RelayPrefix + body), ReplyText(SendFailedPrefix + net(SendText(target, RelayPrefix + body)).error)]
    ensures net(SendText(target, RelayPrefix + body)).Delivered? && net(ReplyText(Confirmation(target))).Failed? ==>
      acts == [SendText(target, RelayPrefix + body), ReplyText(Confirmation(target)),
               ReplyText(SendFailedPrefix + net(ReplyText(Confirmation(target))).error)]
    ensures forall i :: 1 <= i < |acts| ==> acts[i].ReplyText?
  {
    var send := SendText(target, RelayPrefix + body);
    var confirm := ReplyText(Confirmation(target));
    match net(send)
    case Failed(e) =>
      assert Confirmation(target)[0] != (SendFailedPrefix + e)[0];
      [send, ReplyText(SendFailedPrefix + e)]
    case Delivered =>
      match net(confirm)
      case Failed(e) => [send, confirm, ReplyText(SendFailedPrefix + e)]
      case Delivered => [send, confirm]
  }

  /**
   * `handle_admin_reply`: only the operator's non-empty text in the
   * `@<id> <body>` form does anything. A bad id gets the format error and
   * nothing reaches any user; a well-formed reply is relayed. Neither
   * collection changes.
   */
  function HandleAdminReply(st: State, admin: int, user: User, text: Option<string>, net: Network): (r: Outcome)
    ensures r.state == st
    ensures r.actions == [] <==>
      user.id != admin || !Truthy(text) || ReplyParser.Parse(text.value).NotAddressed?
    ensures (|r.actions| > 0 && r.actions[0].SendText?) <==>
      user.id == admin && Truthy(text) && ReplyParser.Parse(text.value).Addressed?
    ensures forall i :: 1 <= i < |r.actions| ==> r.actions[i].ReplyText?
    ensures user.id == admin && Truthy(text) && ReplyParser.Parse(text.value).Malformed? ==>
      r.actions == [ReplyText(FormatErrorText)]
    ensures user.id == admin && Truthy(text) && ReplyParser.Parse(text.value).Addressed? ==>
      var cmd := ReplyParser.Parse(text.value);
      r.actions == RelayCalls(cmd.target, cmd.body, net)
  {
    if user.id != admin || !Truthy(text) then Outcome(st, [])
    else
      match ReplyParser.Parse(text.value)
      case NotAddressed => Outcome(st, [])
      case Malformed => Outcome(st, [ReplyText(FormatErrorText)])
      case Addressed(target, body) => Outcome(st, RelayCalls(target, body, net))
  }

  /** When both calls go through, a well-formed reply is relayed and confirmed, nothing more. */
  lemma RelaysAddressedReply(st: State, admin: User, text: string, target: int, body: string, net: Network)
    requires ReplyParser.Parse(text) == ReplyParser.Addressed(target, body)
    requires net(SendText(target, RelayPrefix + body)) == Delivered
    requires net(ReplyText(Confirmation(target))) == Delivered
    ensures HandleAdminReply(st, admin.id, admin, Some(text), net)
         == Outcome(st, [SendText(target, RelayPrefix + body), ReplyText(Confirmation(target))])
  {
  }

  /** The operator's `@555 <body>`, `@555 Thanks for reaching out` among them, reaches user 555 and is confirmed. */
  lemma ReplyThanksReachesUser(st: State, admin: User, body: string, net: Network)
    requires net(SendText(555, RelayPrefix + body)) == Delivered
    requires net(ReplyText(ConfirmPrefix + "555")) == Delivered
    ensures HandleAdminReply(st, admin.id, admin, Some("@555 " + body), net)
         == Outcome(st, [SendText(555, RelayPrefix + body), ReplyText(ConfirmPrefix + "555")])
  {
    ReplyParser.ParseThanks(body);
    ReplyParser.WritesFiveFiveFive();
    assert Confirmation(555) == ConfirmPrefix + "555";
    RelaysAddressedReply(st, admin, "@555 " + body, 555, body, net);
  }

  /** `handle_no_admin_message`: count and audit the message, then tell the user no operator is configured. */
  function HandleNoAdminMessage(st: State, user: User, payload: Payload, now: Timestamp): (r: Outcome)
    ensures Counted(st.profiles, r.state.profiles, user, now)
    ensures Logged(st.log, r.state.log, MessageEntry(now, user, payload))
    ensures r.actions == [Reply(NoAdminNotice, false)]
  {
    var profiles := Update(st.profiles, user, now).store;
    var c := Classify(payload);
    var log := LogMessage(st.log, now, user.id, user.username, c.kind, c.summary);
    Outcome(State(profiles, log), [Reply(NoAdminNotice, false)])
  }
}

=== FILE: numerals.dfy ===
/**
 * Decimal integers as the bot reads and writes them: Python's `int(s)` on the
 * operator's `@<id>` token and on the configured `admin_id`, and `str(n)` in the
 * confirmation sent back to the operator.
 *
 * `int()` is modelled on its ASCII core: an optional `+` or `-` followed by one
 * or more ASCII digits (leading zeros allowed).
 */
module Numerals {
  import opened Base

  predicate IsDigit(c: char) {
    '0' <= c <= '9'
  }

  predicate AllDigits(s: string) {
    forall i :: 0 <= i < |s| ==> IsDigit(s[i])
  }

  function DigitValue(c: char): (d: nat)
    requires IsDigit(c)
    ensures d < 10
  {
    (c as int) - ('0' as int)
  }

  function DigitChar(d: nat): (c: char)
    requires d < 10
    ensures IsDigit(c) && DigitValue(c) == d
  {
    (('0' as int) + d) as char
  }

  /** The value of a run of decimal digits, most significant digit first. */
  function DigitsValue(s: string): nat
    requires AllDigits(s)
  {
    if |s| == 0 then 0 else DigitsValue(s[..|s| - 1]) * 10 + DigitValue(s[|s| - 1])
  }

  /** The canonical decimal digits of a natural number, as Python's `str` writes them. */
  function NatDigits(n: nat): (s: string)
    ensures |s| >= 1 && AllDigits(s)
    ensures n < 10 <==> |s| == 1
  {
    if n < 10 then [DigitChar(n)] else NatDigits(n / 10) + [DigitChar(n % 10)]
  }

  /** The shape `int()` accepts here: an optional sign, then at least one ASCII digit. */
  predicate IsIntLiteral(s: string) {
    if |s| > 0 && (s[0] == '+' || s[0] == '-') then |s| > 1 && AllDigits(s[1..])
    else |s| > 0 && AllDigits(s)
  }

  /** Python's `str(n)`. */
  function IntToString(n: int): (s: string)
    ensures IsIntLiteral(s)
    ensures forall i :: 0 <= i < |s| ==> s[i] != ' ' && s[i] != '+'
    ensures n >= 0 <==> IsDigit(s[0])
  {
    if n < 0 then "-" + NatDigits(-n) else NatDigits(n)
  }

  /** Python's `int(s)`: the value of `s`, or `None` where `int` raises `ValueError`. */
  function ParseInt(s: string): (r: Option<int>)
    ensures r.Some? <==> IsIntLiteral(s)
    ensures |s| > 0 && AllDigits(s) ==> r == Some(DigitsValue(s))
    ensures r.Some? && s[0] == '-' ==> r.value <= 0
    ensures r.Some? && s[0] != '-' ==> r.value >= 0
  {
    if |s| > 0 && (s[0] == '+' || s[0] == '-') then
      if |s| > 1 && AllDigits(s[1..]) then
        var magnitude: int := DigitsValue(s[1..]);
        Some(if s[0] == '-' then -magnitude else magnitude)
      else None
    else if |s| > 0 && AllDigits(s) then Some(DigitsValue(s))
    else None
  }

  /** Reading back the digits `str` wrote gives the number again. */
  lemma {:induction false} NatDigitsRoundTrip(n: nat)
    ensures DigitsValue(NatDigits(n)) == n
  {
    if n >= 10 {
      var s := NatDigits(n);
      assert s[..|s| - 1] == NatDigits(n / 10);
      NatDigitsRoundTrip(n / 10);
    }
  }

  /** A signed literal is worth its digits, negated for `-`: `int("+5") == 5`, `int("-07") == -7`. */
  lemma ParseIntSigned(s: string)
    requires |s| > 1 && (s[0] == '+' || s[0] == '-') && AllDigits(s[1..])
    ensures ParseInt(s) == Some(if s[0] == '-' then -(DigitsValue(s[1..]) as int) else DigitsValue(s[1..]))
  {
  }

  /** A negative number is written as `-` followed by the digits of its magnitude. */
  lemma NegativeDigits(n: int)
    requires n < 0
    ensures |IntToString(n)| > 1 && IntToString(n)[0] == '-' && IntToString(n)[1..] == NatDigits(-n)
  {
    var d := NatDigits(-n);
    assert ("-" + d)[1..] == d;
  }

  /** `int(str(n)) == n` for every integer `n`. */
  lemma ParseIntRoundTrip(n: int)
    ensures ParseInt(IntToString(n)) == Some(n)
  {
    if n < 0 {
      NegativeRoundTrip(n);
    } else {
      NatDigitsRoundTrip(n);
      assert IntToString(n) == NatDigits(n);
    }
  }

  /** The negative half of `ParseIntRoundTrip`. */
  lemma NegativeRoundTrip(n: int)
    requires n < 0
    ensures ParseInt(IntToString(n)) == Some(n)
  {
    var s := IntToString(n);
    var d := NatDigits(-n);
    NegativeDigits(n);
    assert s[1..] == d && AllDigits(d);
    NatDigitsRoundTrip(-n);
    assert DigitsValue(s[1..]) == -n;
    ParseIntSigned(s);
    assert s[0] == '-';
  }

  /** `str` writes no leading zero: only 0 itself starts with `'0'`. */
  lemma {:induction false} NatDigitsNoLeadingZero(n: nat)
    ensures NatDigits(n)[0] == '0' <==> n == 0
  {
    if n >= 10 {
      NatDigitsNoLeadingZero(n / 10);
      assert NatDigits(n)[0] == NatDigits(n / 10)[0];
    }
  }

  /** `str(n)` writes no leading zero: its first digit is `0` exactly when `n` is 0, and 0 is written `"0"`. */
  lemma IntToStringNoLeadingZero(n: int)
    ensures IntToString(n)[if n < 0 then 1 else 0] == '0' <==> n == 0
    ensures n == 0 ==> IntToString(n) == "0"
  {
    if n < 0 {
      NegativeDigits(n);
      NatDigitsNoLeadingZero(-n);
    } else {
      NatDigitsNoLeadingZero(n);
    }
  }

  /** `str` never writes the same text for two different integers. */
  lemma IntToStringInjective(m: int, n: int)
    ensures IntToString(m) == IntToString(n) <==> m == n
  {
    if IntToString(m) == IntToString(n) {
      ParseIntRoundTrip(m);
      ParseIntRoundTrip(n);
    }
  }
}

=== FILE: profiles.dfy ===
/**
 * The profile store kept by `update_user_info`: one profile per user id,
 * rewritten from the sender's identity on every attributed event, with a
 * message counter that goes up by one each time.
 */
module Profiles {
  import opened Base

  /** The sender of an inbound event, as the chat platform describes it. */
  datatype User = User(
    id: int,
    username: Option<string>,
    firstName: string,
    lastName: Option<string>,
    languageCode: Option<string>)

  datatype Profile = Profile(
    userId: int,
    username: Option<string>,
    firstName: string,
    lastName: Option<string>,
    languageCode: Option<string>,
    lastSeen: Timestamp,
    messageCount: nat)

  /** Profiles by user id (the bot keys its JSON object by `str(id)`, which is one-to-one). */
  type Store = map<int, Profile>

  /** The stored count for `id`, 0 for a user seen for the first time. */
  function PriorCount(store: Store, id: int): nat {
    if id in store then store[id].messageCount else 0
  }

  /** The profile now stored for `user` carries the sender's identity as given. */
  predicate Describes(p: Profile, user: User, now: Timestamp) {
    && p.userId == user.id
    && p.username == user.username
    && p.firstName == user.firstName
    && p.lastName == user.lastName
    && p.languageCode == user.languageCode
    && p.lastSeen == now
  }

  datatype Updated = Updated(store: Store, info: Profile)

  /**
   * `update_user_info`: overwrite the sender's entry with their identity and
   * the previous count plus one; return the new entry as well.
   */
  function Update(store: Store, user: User, now: Timestamp): (r: Updated)
    ensures r.store.Keys == store.Keys + {user.id}
    ensures user.id in r.store && r.store[user.id] == r.info
    ensures Describes(r.info, user, now)
    ensures r.info.messageCount == PriorCount(store, user.id) + 1
    ensures forall id :: id in store && id != user.id ==> r.store[id] == store[id]
  {
    var info := Profile(user.id, user.username, user.firstName, user.lastName, user.languageCode,
                        now, PriorCount(store, user.id) + 1);
    Updated(store[user.id := info], info)
  }

  /** How many of `senders` are the user `id`. */
  function Occurrences(senders: seq<User>, id: int): nat {
    if |senders| == 0 then 0
    else Occurrences(senders[..|senders| - 1], id) + (if senders[|senders| - 1].id == id then 1 else 0)
  }

  /** Applying `update_user_info` once per sender, in order. */
  function UpdateAll(store: Store, senders: seq<User>, now: Timestamp): Store {
    if |senders| == 0 then store
    else Update(UpdateAll(store, senders[..|senders| - 1], now), senders[|senders| - 1], now).store
  }

  /**
   * No increment is lost or doubled: after a run of updates, every user's
   * count is the earlier count plus the number of updates it sent, and users
   * that sent nothing keep their profile exactly.
   */
  lemma {:induction false} UpdateAllCounts(store: Store, senders: seq<User>, now: Timestamp, id: int)
    ensures PriorCount(UpdateAll(store, senders, now), id) == PriorCount(store, id) + Occurrences(senders, id)
    ensures Occurrences(senders, id) == 0 && id in store ==>
      id in UpdateAll(store, senders, now) && UpdateAll(store, senders, now)[id] == store[id]
  {
    if |senders| > 0 {
      UpdateAllCounts(store, senders[..|senders| - 1], now, id);
    }
  }
}

=== FILE: replyparser.dfy ===
/**
 * The operator's addressing convention, as `handle_admin_reply` reads it:
 * `@<id> <body>`, split at the first single space.
 */
module ReplyParser {
  import opened Base
  import Numerals

  /** What the operator's text asks for. */
  datatype ReplyCommand =
    | NotAddressed                       // no leading `@`, or no space at all: ignored
    | Malformed                          // the token after `@` is not an integer
    | Addressed(target: int, body: string)

  /** The index of the first occurrence of `c` in `s`. */
  function FirstIndex(s: string, c: char): (r: Option<nat>)
    ensures r.None? <==> c !in s
    ensures r.Some? ==> r.value < |s| && s[r.value] == c && c !in s[..r.value]
  {
    if |s| == 0 then None
    else if s[0] == c then Some(0)
    else
      match FirstIndex(s[1..], c)
      case None => None
      case Some(k) =>
        assert s[..k + 1] == [s[0]] + s[1..][..k];
        Some(k + 1)
  }

  /**
   * `text.split(' ', 1)` followed by `int(parts[0][1:])`. Text that does not
   * start with `@`, or has no space, is not a reply; the body is everything
   * after the first space, verbatim.
   */
  function Parse(text: string): (r: ReplyCommand)
    ensures r.NotAddressed? <==> |text| == 0 || text[0] != '@' || ' ' !in text
    ensures !r.NotAddressed? ==>
      var k := FirstIndex(text, ' ').value;
      && 1 <= k
      && (r.Malformed? <==> Numerals.ParseInt(text[1..k]).None?)
      && (r.Addressed? ==> Numerals.ParseInt(text[1..k]) == Some(r.target) && r.body == text[k + 1..])
  {
    if |text| == 0 || text[0] != '@' then NotAddressed
    else
      match FirstIndex(text, ' ')
      case None => NotAddressed
      case Some(k) =>
        match Numerals.ParseInt(text[1..k])
        case None => Malformed
        case Some(target) => Addressed(target, text[k + 1..])
  }

  /** The text an operator types to send `body` to user `target`. */
  function Compose(target: int, body: string): string {
    "@" + Numerals.IntToString(target) + " " + body
  }

  /**
   * Every addressed reply is read back as its target and its exact body,
   * spaces inside the body included.
   */
  lemma ParseCompose(target: int, body: string)
    ensures Parse(Compose(target, body)) == Addressed(target, body)
  {
    var digits := Numerals.IntToString(target);
    var text := Compose(target, body);
    var k := |digits| + 1;
    assert text[k] == ' ';
    assert text[..k] == "@" + digits;
    assert ' ' !in text[..k];
    assert FirstIndex(text, ' ') == Some(k);
    assert text[1..k] == digits;
    assert text[k + 1..] == body;
    Numerals.ParseIntRoundTrip(target);
  }

  /** Conversely, an addressed reply is exactly the composition of its parts. */
  lemma ComposeParse(text: string)
    requires Parse(text).Addressed?
    ensures text == "@" + text[1..FirstIndex(text, ' ').value] + " " + Parse(text).body
  {
  }

  /** `str(123)` is `"123"`. */
  lemma WritesOneTwoThree()
    ensures Numerals.IntToString(123) == "123"
  {
  }

  /** `"@123 "` followed by any body, `"@123 hello world"` among them, sends that body to user 123. */
  lemma ParseHelloWorld(body: string)
    ensures Parse("@123 " + body) == Addressed(123, body)
  {
    WritesOneTwoThree();
    assert "@" + "123" + " " == "@123 ";
    assert Compose(123, body) == "@123 " + body;
    ParseCompose(123, body);
  }

  /** `str(555)` is `"555"`. */
  lemma WritesFiveFiveFive()
    ensures Numerals.IntToString(555) == "555"
  {
  }

  /** `"@555 "` followed by any body, `"@555 Thanks for reaching out"` among them, sends that body to user 555. */
  lemma ParseThanks(body: string)
    ensures Parse("@555 " + body) == Addressed(555, body)
  {
    WritesFiveFiveFive();
    assert "@" + "555" + " " == "@555 ";
    assert Compose(555, body) == "@555 " + body;
    ParseCompose(555, body);
  }

  /** `"@123 "` sends an empty body; extra spaces stay in the body. */
  lemma ParseKeepsSpaces()
    ensures Parse("@123 ") == Addressed(123, "")
    ensures Parse("@123  two") == Addressed(123, " two")
  {
    ParseHelloWorld("");
    assert "@123 " + "" == "@123 ";
    ParseHelloWorld(" two");
    assert "@123 " + " two" == "@123  two";
  }

  /** Text without a leading `@`, or without a space, is ignored. */
  lemma ParseIgnored()
    ensures Parse("@123") == NotAddressed
    ensures Parse("hello") == NotAddressed
    ensures Parse("hello @1 x") == NotAddressed
  {
  }

  /** A token after `@` that is not an integer is a format error. */
  lemma ParseMalformed()
    ensures Parse("@abc hi") == Malformed
  {
  }

  /** An empty token, as in `"@ hi"`, is a format error too. */
  lemma ParseEmptyToken()
    ensures Parse("@ hi") == Malformed
  {
  }
}
